=== FILE: README.md ===
# Two-camera capture, merge and edge detection — a Dafny model

The modelled program is a single script, `birlestir_kenartespit.py`. It finds
the connected industrial cameras and opens two of them: the camera-1 role at
device index 2 and the camera-2 role at device index 1. It streams both,
captures one frame from each and saves the frames as
`kamera_{index}_{timestamp}.jpg` in per-camera directories. Then it releases
the cameras, pastes the two frames side by side into one canvas and runs an
edge detector on that composite.

The model covers the script's three pieces of sequential logic:

- **CaptureStore** (`capture_store.dfy`): `get_next_index`, which gives one
  more than the number of `.jpg` entries in a directory listing, and the
  frame file name built in `capture_image`. Two helper modules support it.
  **Paths** (`paths.dfy`) gives POSIX `os.path.join` and `os.path.basename`.
  **Decimal** (`decimal.dfy`) renders `{index}` the way `str(int)` does.
- **Compositor** (`compositor.dfy`): `merge_images` on the in-memory canvas.
  Images are row-major grids of RGB pixels. The canvas is `Image.new('RGB', …)`,
  which starts black, and `paste` is modelled with clipping.
- **Pipeline** (`pipeline.dfy`): `main` and the `None` branches of
  `capture_image` as a pure function. It maps a `World` to a `Run`. The
  `World` holds the device count, each open outcome, each acquisition outcome,
  the directory listings and the timestamps. The `Run` is the trace of actions
  performed plus the point where the run ended. Separately, a device-protocol
  observer (`Step`/`Replay`) defines the legal camera life cycle:
  open → stream on → capture → stream off → close. It also says that a merge
  needs both released cameras and both saved frames. Every trace of `Main` is
  proved to satisfy this observer.

The next index counts every `.jpg` entry in the camera directory, whatever its
prefix, because that is what the code does. It is therefore not a count of
that camera's earlier frames alone: a stray `.jpg` raises it, and a deleted
frame lowers it.

Python's truthiness test `if image1_path and image2_path` is modelled as
"both captures returned `Some`". This is exact because a saved path is never
empty (`CaptureImage`'s contract).

## Model

Some functions spell out the script's constants and pieces of `main`; the lemmas below state what they make a run do:

- `Pipeline.DeviceIndex` gives the device index for each camera role: 2 for camera 1 and 1 for camera 2 (birlestir_kenartespit.py:115 and 120).
- `Pipeline.CameraDir`, `Pipeline.MergedDir` and `Pipeline.EdgesDir` are the output directories (birlestir_kenartespit.py:14-31).
- `Pipeline.MergedPath` and `Pipeline.EdgesPath` are the `merged_{timestamp}.jpg` and `edges_{timestamp}.jpg` outputs (birlestir_kenartespit.py:152 and 156).
- `Pipeline.OpenAttempts` is the two opens, camera 1 at index 2 and then camera 2 at index 1, each recording whether it succeeded (birlestir_kenartespit.py:114-122).
- `Pipeline.CloseOpened` closes the cameras that did open after either open failed (birlestir_kenartespit.py:125-131).
- `Pipeline.CapturedPath` is the `get_next_index` and `capture_image` call for one camera (birlestir_kenartespit.py:137-141).
- `Pipeline.BothSaved` is the condition `image1_path and image2_path` (birlestir_kenartespit.py:150).
- `Pipeline.Session` spells out the action sequence of lines 114-148 once both opens succeed. `Pipeline.Epilogue` and `Pipeline.StreamingTail` spell out lines 150-157; their ensures only say the tail holds nothing but distinct merge and edge-detection actions.

`OpenFailureReleasesOpened`, `StreamingPathReleasesBoth`, `MergeNeedsBothFrames` and `MainFollowsDeviceProtocol` state what these pieces make the trace do.

| member | source | states |
|---|---|---|
| CaptureStore.JpgNames | birlestir_kenartespit.py:35 | the comprehension keeps exactly the listing entries ending in `.jpg` and never more entries than the listing has |
| CaptureStore.NextIndex | birlestir_kenartespit.py:33-36 | `get_next_index` is at least 1 and at most one more than the number of listing entries; the exact count is stated by `NextIndexCountsJpgEntries` |
| CaptureStore.NextIndexCountsJpgEntries | birlestir_kenartespit.py:33-36 | the next index is 1 plus the number of listing positions whose name ends in `.jpg`, so it is at least 1 and other suffixes do not count |
| CaptureStore.NextIndexAppend | birlestir_kenartespit.py:35-36 | one more `.jpg` entry raises the next index by exactly 1, and an entry with any other suffix leaves it unchanged |
| CaptureStore.NextIndexIgnoresOrder | birlestir_kenartespit.py:35 | listings that are permutations of each other give the same next index, so the arbitrary order of `os.listdir` does not matter |
| CaptureStore.FrameBaseName | birlestir_kenartespit.py:62 | a frame name always ends in `.jpg`, and it contains no separator when the timestamp has none |
| CaptureStore.FramePath | birlestir_kenartespit.py:62 | the frame path is non-empty, ends in `.jpg` and starts with the camera directory, and is at most one character longer than the directory plus the base name. For a non-empty directory not ending in `/`, as every camera directory is, the path is exactly the directory, `/`, and `kamera_{index}_{timestamp}.jpg`, so the file lies directly in that directory. When the timestamp has no separator, the path's base name is exactly that file name |
| CaptureStore.FrameBaseNameRoundTrip | birlestir_kenartespit.py:61-62 | the index and timestamp can be parsed back out of `kamera_{index}_{timestamp}.jpg` for every timestamp |
| CaptureStore.ListingAfterSave | birlestir_kenartespit.py:38-41 | after `image.save`, the listing holds the saved name plus exactly the earlier entries; it grows by one entry only when the name was not already listed, because saving over an existing file replaces it |
| CaptureStore.SavedFrameAdvancesIndex | birlestir_kenartespit.py:33-66 | when the timestamp has the `%Y%m%d_%H%M%S` shape, the saved frame is listed under a name recording its index. The next index then rises by one if that name is new, and stays the same if the save overwrote a listed file |
| Decimal.FromNat | birlestir_kenartespit.py:62 | `{index}` is a non-empty string of decimal digits with no leading zero |
| Decimal.ValueOfFromNat | birlestir_kenartespit.py:62 | reading back the decimal rendering of an index gives that index |
| Paths.Join | birlestir_kenartespit.py:62 | `os.path.join` ends with the file name, and an absolute name replaces the directory. A relative name follows the directory with at most one added character; when the directory is non-empty, the character just before the name is the separator. No separator is added exactly when the directory is empty or already ends in one. Together these fix the result to the one `posixpath.join` returns |
| Paths.BaseName | birlestir_kenartespit.py:35 | a listing name is the longest separator-free suffix of the path |
| Paths.BaseNameKeepsSuffix | birlestir_kenartespit.py:35 | a separator-free suffix of a path, such as `.jpg`, is also a suffix of its base name |
| Paths.BaseNameOfJoin | birlestir_kenartespit.py:62 | the base name of a directory joined with a separator-free file name is that file name |
| Compositor.Blank | birlestir_kenartespit.py:77 | the new canvas has the requested size and every pixel is black (0,0,0) |
| Compositor.PasteRow | birlestir_kenartespit.py:78-79 | pasting into one row keeps the row length, shows the source at and after the offset up to the row end, and leaves every other column unchanged |
| Compositor.Paste | birlestir_kenartespit.py:78-79 | a paste keeps the canvas size, shows the pasted image where it overlaps, and leaves every other pixel unchanged |
| Compositor.Merge | birlestir_kenartespit.py:68-83 | the composite is `w1+w2` wide and `max(h1,h2)` tall. Pixel (x,y) with x < w1 is the left image's pixel (x,y) when y < h1 and black otherwise. Pixel (w1+x,y) is the right image's pixel (x,y) when y < h2 and black otherwise |
| Compositor.MergeSplitRoundTrip | birlestir_kenartespit.py:74-79 | cutting the left and right regions back out of the composite gives the two input images unchanged, so neither paste overwrites the other. `Crop` is only the observation used to cut them out; the script never crops |
| Compositor.MergeUncoveredIsBlack | birlestir_kenartespit.py:77-79 | every composite pixel covered by neither image keeps the black fill |
| Pipeline.CaptureImage | birlestir_kenartespit.py:43-66 | a capture yields `None` exactly when the raw frame or its RGB conversion is missing, and otherwise a non-empty `.jpg` path inside the camera directory. For a directory not ending in `/` the path is exactly the directory, `/` and `kamera_{index}_{timestamp}.jpg`. With a separator-free timestamp the path's base name is that file name |
| Pipeline.CaptureRecordsIndex | birlestir_kenartespit.py:137-141 | the frame captured at `get_next_index`'s value is saved under a name recording that index. Saving it raises the next index by one, unless a file of that name was already listed and is overwritten |
| Pipeline.Main | birlestir_kenartespit.py:97-157 | a run does nothing exactly when fewer than two devices are found, reporting no devices for 0. A run completes exactly when at least two devices exist, both open and both acquisitions convert |
| Pipeline.FewDevicesDoNothing | birlestir_kenartespit.py:100-108 | with a device count below 2 the trace is empty, so nothing is opened, streamed, captured or merged, and the two early returns are told apart |
| Pipeline.OpenFailureReleasesOpened | birlestir_kenartespit.py:114-131 | when either open fails, camera 1 is tried at index 2 and camera 2 at index 1, exactly the cameras that opened are closed, and only opens and closes occur |
| Pipeline.StreamingPathReleasesBoth | birlestir_kenartespit.py:114-148 | with both cameras open, the actions run in this order whatever the captures return: camera 1 is opened at index 2 and then camera 2 at index 1; camera 1 and then camera 2 are streamed on; camera 1 and then camera 2 are captured at their directories' next index; camera 1 is streamed off and closed; then camera 2 is streamed off and closed |
| Pipeline.StreamingPathNoRepeats | birlestir_kenartespit.py:114-157 | with both cameras open, no action occurs twice in the trace, so no open, stream, capture, close, merge or edge detection is repeated |
| Pipeline.OpenedDevicesAreClosed | birlestir_kenartespit.py:125-148 | on every run that raises no exception, a camera is closed exactly when its open succeeded |
| Pipeline.MergeNeedsBothFrames | birlestir_kenartespit.py:150-157 | merge and edge detection each occur exactly once when both cameras opened and both captures produced a file, and never otherwise |
| Pipeline.MergeUsesCapturedFrames | birlestir_kenartespit.py:150-157 | a merge takes the two captured paths, left then right, and is immediately followed by edge detection on the merged file |
| Pipeline.MainFollowsDeviceProtocol | birlestir_kenartespit.py:97-157 | on every run that raises no exception, the trace is accepted by the device-protocol observer and ends with both cameras closed. Captures happen only while streaming. A merge happens only after both cameras are released and both frames are saved. A merged file and its edge map exist at the end exactly when the run completed |

## Left out

- The camera SDK (`DeviceManager`, `update_device_list`, `open_device_by_index`, `stream_on`, `data_stream[0].get_image`, `convert`, `get_numpy_array`, `close_device`): these are hardware calls. Device count, open outcomes and acquisition outcomes are fields of `World`, and the calls appear as trace actions.
- Exceptions that the script does not catch: a failure in `update_device_list`, `stream_on`, `os.listdir` inside `get_next_index` (birlestir_kenartespit.py:35), `get_image` (45), `convert` (51), `get_numpy_array` or `Image.fromarray` (57-58), the image save (40), `stream_off`, `close_device`, `merge_images` or `detect_edges` ends the process. Lines 134-148 have no `try`/`finally`, so an exception raised from the first `stream_on` onward leaves `main` with every camera not yet released still open, and still streaming if its `stream_on` returned. An exception inside `cam1.stream_on()` leaves both cameras open but not streaming. One raised in `cam2.stream_off()` or `cam2.close_device()` comes after camera 1 has already been released. The model assumes these calls return normally. Only the open failures, which the script does catch, are modelled. The release properties (`OpenedDevicesAreClosed`, `MainFollowsDeviceProtocol`) hold only for runs that raise no exception; they are not a promise of release on every exit path.
- Pillow and OpenCV decoding and encoding (`Image.open`, `save`, `cv2.imread`, `cv2.imwrite`): JPEG is lossy, so the pixel properties are stated for the in-memory canvas before the save at birlestir_kenartespit.py:82. In the trace, `Merge` and `DetectEdges` carry file paths only.
- `detect_edges` (birlestir_kenartespit.py:85-95): grey conversion and Canny with thresholds 100 and 200 are an opaque library algorithm, modelled as the single `DetectEdges` action.
- Compositor.Paste: modelled only for non-negative offsets on RGB images, the only way the script calls it. Pillow's negative offsets and mode conversion are not modelled.
- Directory creation at import time (birlestir_kenartespit.py:9-31): the directory paths are constants. Existence checks and `makedirs` are file-system effects.
- `datetime.now().strftime(...)`: timestamps are opaque string inputs. Only the lemmas that need a separator-free name assume the `%Y%m%d_%H%M%S` shape.
- `print` logging: the `Outcome` of a run records which early return or ending was reached instead.
- The foreground-extraction variant (`detect_and_crop_object` in ParcayıBulBeyazBoya.py) is a different script and is not part of this model.

=== FILE: capture_store.dfy ===
/**
  The per-camera capture directory: the next sequence index is recomputed from
  the directory listing, and each saved frame gets a name embedding that index
  and a timestamp.
 */
module CaptureStore {
  import opened Wrappers
  import Paths
  import Decimal

  const JpgSuffix: string := ".jpg"
  const FramePrefix: string := "kamera_"

  /** Python's `str.endswith`. */
  predicate EndsWith(s: string, suffix: string) {
    |suffix| <= |s| && s[|s| - |suffix|..] == suffix
  }

  predicate IsJpg(name: string) {
    EndsWith(name, JpgSuffix)
  }

  /** The listing entries kept by the comprehension in `get_next_index`, in listing order. */
  function JpgNames(listing: seq<string>): (kept: seq<string>)
    ensures |kept| <= |listing|
    ensures forall f :: f in kept <==> f in listing && IsJpg(f)
  {
    if listing == [] then []
    else
      var last := listing[|listing| - 1];
      JpgNames(listing[..|listing| - 1]) + (if IsJpg(last) then [last] else [])
  }

  /** `get_next_index`: one more than the number of `.jpg` entries. */
  function NextIndex(listing: seq<string>): (index: nat)
    ensures 1 <= index <= |listing| + 1
  {
    |JpgNames(listing)| + 1
  }

  /** Positions of the listing whose entry ends in `.jpg`: an independent count of the same thing. */
  function JpgPositions(listing: seq<string>): set<nat> {
    set k: nat | k < |listing| && IsJpg(listing[k])
  }

  /** The next index is one more than the number of listing positions holding a `.jpg` name. */
  lemma {:induction false} NextIndexCountsJpgEntries(listing: seq<string>)
    ensures NextIndex(listing) == |JpgPositions(listing)| + 1
  {
    if listing != [] {
      var init, last := listing[..|listing| - 1], listing[|listing| - 1];
      NextIndexCountsJpgEntries(init);
      if IsJpg(last) {
        assert JpgPositions(listing) == JpgPositions(init) + {|init|};
      } else {
        assert JpgPositions(listing) == JpgPositions(init);
      }
    }
  }

  /** One more `.jpg` entry raises the next index by one; any other entry leaves it alone. */
  lemma NextIndexAppend(listing: seq<string>, name: string)
    ensures IsJpg(name) ==> NextIndex(listing + [name]) == NextIndex(listing) + 1
    ensures !IsJpg(name) ==> NextIndex(listing + [name]) == NextIndex(listing)
  {
    assert (listing + [name])[..|listing|] == listing;
  }

  /** How often each name occurs among the kept entries. */
  lemma {:induction false} JpgNamesMultiplicity(listing: seq<string>, f: string)
    ensures multiset(JpgNames(listing))[f] == if IsJpg(f) then multiset(listing)[f] else 0
  {
    if listing != [] {
      var init, last := listing[..|listing| - 1], listing[|listing| - 1];
      JpgNamesMultiplicity(init, f);
      assert listing == init + [last];
    }
  }

  /** The directory listing comes in no particular order: the next index does not depend on it. */
  lemma NextIndexIgnoresOrder(a: seq<string>, b: seq<string>)
    requires multiset(a) == multiset(b)
    ensures NextIndex(a) == NextIndex(b)
  {
    forall f
      ensures multiset(JpgNames(a))[f] == multiset(JpgNames(b))[f]
    {
      JpgNamesMultiplicity(a, f);
      JpgNamesMultiplicity(b, f);
    }
    assert multiset(JpgNames(a)) == multiset(JpgNames(b));
    assert |multiset(JpgNames(a))| == |JpgNames(a)|;
    assert |multiset(JpgNames(b))| == |JpgNames(b)|;
  }

  /** What a frame file name records. */
  datatype FrameName = FrameName(index: nat, timestamp: string)

  /** The base name `kamera_{index}_{timestamp}.jpg` given to a captured frame. */
  function FrameBaseName(index: nat, timestamp: string): (name: string)
    ensures IsJpg(name)
    ensures |FramePrefix| <= |name| && name[..|FramePrefix|] == FramePrefix
    ensures Paths.Sep !in timestamp ==> Paths.Sep !in name
  {
    FramePrefix + Decimal.FromNat(index) + "_" + timestamp + JpgSuffix
  }

  /** The path a frame is saved under inside its camera directory. */
  function FramePath(cameraDir: string, index: nat, timestamp: string): (path: string)
    ensures IsJpg(path) && path != []
    ensures |cameraDir| <= |path| && path[..|cameraDir|] == cameraDir
    ensures |cameraDir| + |FrameBaseName(index, timestamp)| <= |path|
                        <= |cameraDir| + 1 + |FrameBaseName(index, timestamp)|
    ensures cameraDir != [] && cameraDir[|cameraDir| - 1] != Paths.Sep ==>
      path == cameraDir + [Paths.Sep] + FrameBaseName(index, timestamp)
    ensures Paths.Sep !in timestamp ==> Paths.BaseName(path) == FrameBaseName(index, timestamp)
  {
    var name := FrameBaseName(index, timestamp);
    assert name[0] == FramePrefix[0];
    var path := Paths.Join(cameraDir, name);
    EndsWithSuffix(path, name, JpgSuffix);
    if Paths.Sep !in timestamp then
      Paths.BaseNameOfJoin(cameraDir, name);
      path
    else
      path
  }

  /** A suffix of a suffix is a suffix. */
  lemma EndsWithSuffix(s: string, t: string, u: string)
    requires EndsWith(s, t) && EndsWith(t, u)
    ensures EndsWith(s, u)
  {
    assert s[|s| - |u|..] == s[|s| - |t|..][|t| - |u|..];
  }

  /** The position of the first `c` in `s`, or `|s|` when there is none. */
  function FirstIndexOf(s: string, c: char): (k: nat)
    ensures k <= |s|
    ensures forall i :: 0 <= i < k ==> s[i] != c
    ensures k < |s| ==> s[k] == c
  {
    if s == [] then 0
    else if s[0] == c then 0
    else 1 + FirstIndexOf(s[1..], c)
  }

  /** Reads the index and timestamp back out of a frame base name. */
  function ParseFrameBaseName(name: string): (parsed: Option<FrameName>)
    ensures parsed.Some? ==> IsJpg(name) && |FramePrefix| <= |name| && name[..|FramePrefix|] == FramePrefix
  {
    if |name| < |FramePrefix| + |JpgSuffix| || name[..|FramePrefix|] != FramePrefix || !IsJpg(name) then None
    else
      var middle := name[|FramePrefix|..|name| - |JpgSuffix|];
      var k := FirstIndexOf(middle, '_');
      if k == 0 || k == |middle| || !Decimal.AllDigits(middle[..k]) then None
      else Some(FrameName(Decimal.ValueOf(middle[..k]), middle[k + 1..]))
  }

  /** The index and timestamp can be recovered from every frame base name, whatever the timestamp holds. */
  lemma FrameBaseNameRoundTrip(index: nat, timestamp: string)
    ensures ParseFrameBaseName(FrameBaseName(index, timestamp)) == Some(FrameName(index, timestamp))
  {
    var digits := Decimal.FromNat(index);
    var name := FrameBaseName(index, timestamp);
    assert name[..|FramePrefix|] == FramePrefix;
    var middle := name[|FramePrefix|..|name| - |JpgSuffix|];
    assert middle == digits + "_" + timestamp;
    assert FirstIndexOf(middle, '_') == |digits| by {
      assert middle[|digits|] == '_';
    }
    assert middle[..|digits|] == digits;
    assert middle[|digits| + 1..] == timestamp;
    Decimal.ValueOfFromNat(index);
  }

  /** The shape `strftime("%Y%m%d_%H%M%S")` produces: eight digits, an underscore, six digits. */
  predicate StampShaped(ts: string) {
    |ts| == 15 && ts[8] == '_' && forall i :: 0 <= i < 15 && i != 8 ==> Decimal.IsDigit(ts[i])
  }

  /**
    The directory listing after a file named `name` is saved: a new name joins
    the listing, while saving over an existing file leaves the listing as it was.
   */
  function ListingAfterSave(listing: seq<string>, name: string): (after: seq<string>)
    ensures name in after
    ensures forall f :: f in after <==> f in listing || f == name
    ensures |after| == |listing| + (if name in listing then 0 else 1)
  {
    if name in listing then listing else listing + [name]
  }

  /**
    A saved frame, seen by the next listing of its directory, names the index it
    was saved under; it raises the next index by exactly one when its name is
    new, and leaves it unchanged when the save overwrote a listed file.
   */
  lemma SavedFrameAdvancesIndex(listing: seq<string>, cameraDir: string, timestamp: string)
    requires StampShaped(timestamp)
    ensures var entry := Paths.BaseName(FramePath(cameraDir, NextIndex(listing), timestamp));
      && ParseFrameBaseName(entry) == Some(FrameName(NextIndex(listing), timestamp))
      && NextIndex(ListingAfterSave(listing, entry)) == NextIndex(listing) + (if entry in listing then 0 else 1)
  {
    var name := FrameBaseName(NextIndex(listing), timestamp);
    assert Paths.Sep !in timestamp;
    FrameBaseNameRoundTrip(NextIndex(listing), timestamp);
    NextIndexAppend(listing, name);
  }
}

=== FILE: compositor.dfy ===
/**
  `merge_images` on the in-memory canvas: a black RGB canvas as wide as both
  frames together and as tall as the taller one, with the left frame pasted at
  the origin and the right frame pasted just after it.
 */
module Compositor {

  newtype Channel = x: int | 0 <= x < 256

  datatype Pixel = Pixel(r: Channel, g: Channel, b: Channel)

  /** The colour a new RGB canvas starts with. */
  const Black: Pixel := Pixel(0, 0, 0)

  /** A row-major pixel grid together with its declared size. */
  datatype Raster = Raster(width: nat, height: nat, rows: seq<seq<Pixel>>)

  predicate WellFormed(r: Raster) {
    |r.rows| == r.height && forall y :: 0 <= y < |r.rows| ==> |r.rows[y]| == r.width
  }

  type Image = r: Raster | WellFormed(r) witness Raster(0, 0, [])

  function At(img: Image, x: nat, y: nat): Pixel
    requires x < img.width && y < img.height
  {
    img.rows[y][x]
  }

  /** Two images of the same size with the same pixels are the same image. */
  lemma SamePixelsSameImage(a: Image, b: Image)
    requires a.width == b.width && a.height == b.height
    requires forall x: nat, y: nat :: x < a.width && y < a.height ==> At(a, x, y) == At(b, x, y)
    ensures a == b
  {
    forall y | 0 <= y < a.height
      ensures a.rows[y] == b.rows[y]
    {
      forall x | 0 <= x < a.width
        ensures a.rows[y][x] == b.rows[y][x]
      {
        assert At(a, x, y) == At(b, x, y);
      }
    }
  }

  /** `Image.new('RGB', (w, h))`. */
  function Blank(w: nat, h: nat): (canvas: Image)
    ensures canvas.width == w && canvas.height == h
    ensures forall x: nat, y: nat :: x < w && y < h ==> At(canvas, x, y) == Black
  {
    Raster(w, h, seq(h, _ => seq(w, _ => Black)))
  }

  /** One canvas row with `src` laid over it from column `ox`, clipped at the row's end. */
  function PasteRow(row: seq<Pixel>, src: seq<Pixel>, ox: nat): (r: seq<Pixel>)
    ensures |r| == |row|
    ensures forall x :: 0 <= x < |row| ==> r[x] == if ox <= x < ox + |src| then src[x - ox] else row[x]
  {
    if ox >= |row| then row
    else
      var end := if ox + |src| <= |row| then ox + |src| else |row|;
      row[..ox] + src[..end - ox] + row[end..]
  }

  /** `canvas.paste(img, (ox, oy))`: the canvas keeps its size, the overlap shows `img`. */
  function Paste(canvas: Image, img: Image, ox: nat, oy: nat): (r: Image)
    ensures r.width == canvas.width && r.height == canvas.height
    ensures forall x: nat, y: nat :: x < r.width && y < r.height ==>
      At(r, x, y) == if ox <= x < ox + img.width && oy <= y < oy + img.height then At(img, x - ox, y - oy) else At(canvas, x, y)
  {
    Raster(canvas.width, canvas.height,
      seq(canvas.height, y requires 0 <= y < canvas.height =>
        if oy <= y < oy + img.height then PasteRow(canvas.rows[y], img.rows[y - oy], ox) else canvas.rows[y]))
  }

  function Max(a: nat, b: nat): nat {
    if a >= b then a else b
  }

  /**
    `merge_images` before the save: the left frame at (0, 0), the right frame at
    (left width, 0), and black wherever neither frame reaches.
   */
  function Merge(left: Image, right: Image): (m: Image)
    ensures m.width == left.width + right.width
    ensures m.height == Max(left.height, right.height) && m.height >= left.height && m.height >= right.height
    ensures forall x: nat, y: nat :: x < left.width && y < m.height ==>
      At(m, x, y) == if y < left.height then At(left, x, y) else Black
    ensures forall x: nat, y: nat :: x < right.width && y < m.height ==>
      At(m, left.width + x, y) == if y < right.height then At(right, x, y) else Black
  {
    var canvas := Blank(left.width + right.width, Max(left.height, right.height));
    Paste(Paste(canvas, left, 0, 0), right, left.width, 0)
  }

  /** The `w` by `h` window of `img` whose top-left corner is (x0, y0). */
  function Crop(img: Image, x0: nat, y0: nat, w: nat, h: nat): (c: Image)
    requires x0 + w <= img.width && y0 + h <= img.height
    ensures c.width == w && c.height == h
    ensures forall x: nat, y: nat :: x < w && y < h ==> At(c, x, y) == At(img, x0 + x, y0 + y)
  {
    Raster(w, h, seq(h, y requires 0 <= y < h => img.rows[y0 + y][x0..x0 + w]))
  }

  /** Both frames can be cut back out of the composite unchanged: nothing of either is lost or overwritten. */
  lemma MergeSplitRoundTrip(left: Image, right: Image)
    ensures Crop(Merge(left, right), 0, 0, left.width, left.height) == left
    ensures Crop(Merge(left, right), left.width, 0, right.width, right.height) == right
  {
    var m := Merge(left, right);
    SamePixelsSameImage(Crop(m, 0, 0, left.width, left.height), left);
    var c := Crop(m, left.width, 0, right.width, right.height);
    forall x: nat, y: nat | x < right.width && y < right.height
      ensures At(c, x, y) == At(right, x, y)
    {
      assert At(c, x, y) == At(m, left.width + x, y);
    }
    SamePixelsSameImage(c, right);
  }

  /** Composite pixels outside both frames are exactly the black fill below the shorter frame. */
  lemma MergeUncoveredIsBlack(left: Image, right: Image, x: nat, y: nat)
    requires x < left.width + right.width && y < Max(left.height, right.height)
    requires if x < left.width then y >= left.height else y >= right.height
    ensures At(Merge(left, right), x, y) == Black
  {
    if x >= left.width {
      var m := Merge(left, right);
      assert At(m, left.width + (x - left.width), y) == Black;
    }
  }
}

=== FILE: decimal.dfy ===
/** Decimal rendering of natural numbers, as Python's `str(int)` writes them. */
module Decimal {

  predicate IsDigit(c: char) {
    '0' <= c <= '9'
  }

  predicate AllDigits(s: string) {
    forall i :: 0 <= i < |s| ==> IsDigit(s[i])
  }

  function DigitChar(d: nat): (c: char)
    requires d < 10
    ensures IsDigit(c)
  {
    (('0' as int) + d) as char
  }

  function DigitValue(c: char): (d: nat)
    requires IsDigit(c)
    ensures d < 10
  {
    (c as int) - ('0' as int)
  }

  /** The value a digit string denotes, most significant digit first. */
  function ValueOf(s: string): nat
    requires AllDigits(s)
  {
    if s == [] then 0 else 10 * ValueOf(s[..|s| - 1]) + DigitValue(s[|s| - 1])
  }

  /** `str(n)`: a non-empty digit string without leading zeros. */
  function FromNat(n: nat): (s: string)
    ensures s != [] && AllDigits(s)
    ensures |s| == 1 || s[0] != '0'
    decreases n
  {
    if n < 10 then [DigitChar(n)] else FromNat(n / 10) + [DigitChar(n % 10)]
  }

  /** Reading back the rendering of `n` gives `n`. */
  lemma {:induction false} ValueOfFromNat(n: nat)
    ensures ValueOf(FromNat(n)) == n
    decreases n
  {
    var s := FromNat(n);
    if n >= 10 {
      ValueOfFromNat(n / 10);
      assert s[..|s| - 1] == FromNat(n / 10);
    }
  }
}

=== FILE: paths.dfy ===
/**
  POSIX path handling as the script uses it: joining a directory and a file
  name, and the base name that a directory listing reports for a path.
 */
module Paths {

  const Sep: char := '/'

  /** POSIX `os.path.join` of two components. */
  function Join(dir: string, name: string): (p: string)
    ensures |name| <= |p| && p[|p| - |name|..] == name
    ensures name != [] && name[0] == Sep ==> p == name
    ensures (name == [] || name[0] != Sep) ==> |dir| <= |p| && p[..|dir|] == dir
    ensures (name == [] || name[0] != Sep) ==> |dir| + |name| <= |p| <= |dir| + 1 + |name|
    ensures (name == [] || name[0] != Sep) && dir != [] ==> p[|p| - |name| - 1] == Sep
    ensures (name == [] || name[0] != Sep) ==>
      (|p| == |dir| + |name| <==> dir == [] || dir[|dir| - 1] == Sep)
  {
    if name != [] && name[0] == Sep then name
    else if dir == [] || dir[|dir| - 1] == Sep then dir + name
    else dir + [Sep] + name
  }

  /** POSIX `os.path.basename`: everything after the last separator. */
  function BaseName(p: string): (b: string)
    ensures Sep !in b
    ensures |b| <= |p| && p[|p| - |b|..] == b
    ensures |b| == |p| || p[|p| - |b| - 1] == Sep
  {
    if p == [] then []
    else if p[|p| - 1] == Sep then []
    else BaseName(p[..|p| - 1]) + [p[|p| - 1]]
  }

  /** A base name is the longest separator-free suffix, so a suffix free of separators survives it. */
  lemma {:induction false} BaseNameKeepsSuffix(p: string, suffix: string)
    requires Sep !in suffix
    requires |suffix| <= |p| && p[|p| - |suffix|..] == suffix
    ensures |suffix| <= |BaseName(p)|
    ensures BaseName(p)[|BaseName(p)| - |suffix|..] == suffix
  {
    if suffix != [] {
      assert p[|p| - 1] == suffix[|suffix| - 1];
      var p', s' := p[..|p| - 1], suffix[..|suffix| - 1];
      assert p'[|p'| - |s'|..] == s';
      BaseNameKeepsSuffix(p', s');
      assert BaseName(p) == BaseName(p') + [p[|p| - 1]];
    }
  }

  /** Joining a separator-free name onto any directory and taking the base name gives the name back. */
  lemma {:induction false} BaseNameOfJoin(dir: string, name: string)
    requires Sep !in name
    ensures BaseName(Join(dir, name)) == name
  {
    var p := Join(dir, name);
    BaseNameKeepsSuffix(p, name);
    if |p| > |name| {
      if dir == [] || dir[|dir| - 1] == Sep {
        assert p == dir + name;
        assert p[|p| - |name| - 1] == dir[|dir| - 1];
      } else {
        assert p == dir + [Sep] + name;
      }
      assert p[|p| - |name| - 1] == Sep;
    }
  }
}

=== FILE: pipeline.dfy ===
/**
  `main` and `capture_image` as a pure function from what the cameras and the
  file system do to the sequence of actions the script performs.
 */
module Pipeline {
  import opened Wrappers
  import Paths
  import CaptureStore

  datatype Role = Cam1 | Cam2

  /** The device index each role is opened at: a wiring constant, not discovered. */
  function DeviceIndex(role: Role): nat {
    match role
    case Cam1 => 2
    case Cam2 => 1
  }

  const OutputDir: string := "your/output/directory"
  const MergedDir: string := Paths.Join(OutputDir, "merged")
  const EdgesDir: string := Paths.Join(OutputDir, "edges")

  function CameraDir(role: Role): string {
    Paths.Join(OutputDir, if role == Cam1 then "kamera1" else "kamera2")
  }

  /** What one `get_image` and RGB `convert` attempt delivers. */
  datatype Acquisition = NoRawImage | ConversionFailed | Converted

  /** Everything outside the script that decides how a run goes. */
  datatype World = World(
    deviceCount: nat,
    cam1Opens: bool, cam2Opens: bool,
    listing1: seq<string>, listing2: seq<string>,
    acquisition1: Acquisition, acquisition2: Acquisition,
    stamp1: string, stamp2: string, mergeStamp: string, edgesStamp: string)

  datatype Action =
    | Open(role: Role, deviceIndex: nat, succeeded: bool)
    | StreamOn(role: Role)
    | Capture(role: Role, index: nat, saved: Option<string>)
    | StreamOff(role: Role)
    | Close(role: Role)
    | Merge(left: string, right: string, output: string)
    | DetectEdges(input: string, output: string)

  /** Where a run ends; each abort corresponds to one of the script's early returns. */
  datatype Outcome = NoDevices | TooFewDevices | OpenFailed | CaptureIncomplete | Completed(merged: string, edges: string)

  datatype Run = Run(trace: seq<Action>, outcome: Outcome)

  /** `capture_image`: `None` when no raw frame arrives or it cannot be converted, else the saved path. */
  function CaptureImage(acquisition: Acquisition, index: nat, cameraDir: string, stamp: string): (saved: Option<string>)
    ensures saved.Some? <==> acquisition == Converted
    ensures saved.Some? ==> saved.value != [] && CaptureStore.IsJpg(saved.value)
    ensures saved.Some? ==> |cameraDir| <= |saved.value| && saved.value[..|cameraDir|] == cameraDir
    ensures saved.Some? && cameraDir != [] && cameraDir[|cameraDir| - 1] != Paths.Sep ==>
      saved.value == cameraDir + [Paths.Sep] + CaptureStore.FrameBaseName(index, stamp)
    ensures saved.Some? && Paths.Sep !in stamp ==> Paths.BaseName(saved.value) == CaptureStore.FrameBaseName(index, stamp)
  {
    match acquisition
    case NoRawImage => None
    case ConversionFailed => None
    case Converted => Some(CaptureStore.FramePath(cameraDir, index, stamp))
  }

  /**
    The file a capture saves is listed under a name that records the index and
    timestamp it was captured with; saving it raises the next index by one
    unless a file of that name was already listed and is overwritten.
   */
  lemma CaptureRecordsIndex(acquisition: Acquisition, listing: seq<string>, cameraDir: string, stamp: string)
    requires CaptureStore.StampShaped(stamp)
    ensures var saved := CaptureImage(acquisition, CaptureStore.NextIndex(listing), cameraDir, stamp);
      saved.Some? ==>
        var entry := Paths.BaseName(saved.value);
        && CaptureStore.ParseFrameBaseName(entry) == Some(CaptureStore.FrameName(CaptureStore.NextIndex(listing), stamp))
        && CaptureStore.NextIndex(CaptureStore.ListingAfterSave(listing, entry))
             == CaptureStore.NextIndex(listing) + (if entry in listing then 0 else 1)
  {
    CaptureStore.SavedFrameAdvancesIndex(listing, cameraDir, stamp);
  }

  /** The path `main` gets back from capturing with `role`, given what the world delivers. */
  function CapturedPath(w: World, role: Role): Option<string> {
    match role
    case Cam1 => CaptureImage(w.acquisition1, CaptureStore.NextIndex(w.listing1), CameraDir(Cam1), w.stamp1)
    case Cam2 => CaptureImage(w.acquisition2, CaptureStore.NextIndex(w.listing2), CameraDir(Cam2), w.stamp2)
  }

  function OpenAttempts(w: World): seq<Action> {
    [Open(Cam1, DeviceIndex(Cam1), w.cam1Opens), Open(Cam2, DeviceIndex(Cam2), w.cam2Opens)]
  }

  /** The cameras closed again after a failed open. */
  function CloseOpened(w: World): seq<Action> {
    (if w.cam1Opens then [Close(Cam1)] else []) + (if w.cam2Opens then [Close(Cam2)] else [])
  }

  /** Both cameras opened: stream on, capture once each, stream off and close. */
  function Session(index1: nat, path1: Option<string>, index2: nat, path2: Option<string>): seq<Action> {
    [ Open(Cam1, DeviceIndex(Cam1), true), Open(Cam2, DeviceIndex(Cam2), true),
      StreamOn(Cam1), StreamOn(Cam2),
      Capture(Cam1, index1, path1), Capture(Cam2, index2, path2),
      StreamOff(Cam1), Close(Cam1), StreamOff(Cam2), Close(Cam2) ]
  }

  /** Both frames saved: merge them, then detect edges on the merged file. */
  function Epilogue(left: string, right: string, merged: string, edges: string): (e: seq<Action>)
    ensures forall k :: 0 <= k < |e| ==> e[k].Merge? || e[k].DetectEdges?
    ensures NoRepeats(e)
  {
    [Merge(left, right, merged), DetectEdges(merged, edges)]
  }

  function MergedPath(w: World): string {
    Paths.Join(MergedDir, "merged_" + w.mergeStamp + ".jpg")
  }

  function EdgesPath(w: World): string {
    Paths.Join(EdgesDir, "edges_" + w.edgesStamp + ".jpg")
  }

  /** Both captures returned a path, the condition at line 150. */
  predicate BothSaved(w: World) {
    CapturedPath(w, Cam1).Some? && CapturedPath(w, Cam2).Some?
  }

  /** What follows the session: the epilogue when both frames were saved, else nothing. */
  function StreamingTail(w: World): (e: seq<Action>)
    ensures forall k :: 0 <= k < |e| ==> e[k].Merge? || e[k].DetectEdges?
    ensures NoRepeats(e)
  {
    if BothSaved(w) then
      Epilogue(CapturedPath(w, Cam1).value, CapturedPath(w, Cam2).value, MergedPath(w), EdgesPath(w))
    else []
  }

  /** `main`. */
  function Main(w: World): (run: Run)
    ensures run.trace == [] <==> w.deviceCount < 2
    ensures w.deviceCount == 0 ==> run.outcome == NoDevices
    ensures w.deviceCount == 1 ==> run.outcome == TooFewDevices
    ensures run.outcome.Completed? <==>
      w.deviceCount >= 2 && w.cam1Opens && w.cam2Opens && w.acquisition1 == Converted && w.acquisition2 == Converted
  {
    if w.deviceCount == 0 then Run([], NoDevices)
    else if w.deviceCount < 2 then Run([], TooFewDevices)
    else if !w.cam1Opens || !w.cam2Opens then Run(OpenAttempts(w) + CloseOpened(w), OpenFailed)
    else
      var index1, index2 := CaptureStore.NextIndex(w.listing1), CaptureStore.NextIndex(w.listing2);
      var path1, path2 := CapturedPath(w, Cam1), CapturedPath(w, Cam2);
      Run(Session(index1, path1, index2, path2) + StreamingTail(w),
        if BothSaved(w) then Completed(MergedPath(w), EdgesPath(w)) else CaptureIncomplete)
  }

  function Opens(w: World, role: Role): bool {
    match role
    case Cam1 => w.cam1Opens
    case Cam2 => w.cam2Opens
  }

  /** `a` occurs somewhere before `b` in `t`. */
  predicate Precedes(t: seq<Action>, a: Action, b: Action) {
    exists i, j :: 0 <= i < j < |t| && t[i] == a && t[j] == b
  }

  predicate IsMerge(a: Action) {
    a.Merge?
  }

  predicate IsEdges(a: Action) {
    a.DetectEdges?
  }

  /** How many actions of `t` satisfy `p`. */
  function CountIf(t: seq<Action>, p: Action -> bool): (n: nat)
    ensures n <= |t|
    ensures n == 0 <==> forall a :: a in t ==> !p(a)
  {
    if t == [] then 0 else CountIf(t[..|t| - 1], p) + (if p(t[|t| - 1]) then 1 else 0)
  }

  lemma {:induction false} CountIfConcat(s: seq<Action>, t: seq<Action>, p: Action -> bool)
    ensures CountIf(s + t, p) == CountIf(s, p) + CountIf(t, p)
    decreases |t|
  {
    if t == [] {
      assert s + t == s;
    } else {
      assert (s + t)[..|s + t| - 1] == s + t[..|t| - 1];
      assert (s + t)[|s + t| - 1] == t[|t| - 1];
      CountIfConcat(s, t[..|t| - 1], p);
    }
  }

  /** With fewer than two devices `main` returns before touching any camera or file. */
  lemma FewDevicesDoNothing(w: World)
    requires w.deviceCount < 2
    ensures Main(w).trace == []
    ensures Main(w).outcome == if w.deviceCount == 0 then NoDevices else TooFewDevices
  {
  }

  /**
    When either open fails, camera 1 is tried at device index 2 and camera 2 at
    index 1, exactly the cameras that did open are closed, and nothing else happens.
   */
  lemma OpenFailureReleasesOpened(w: World)
    requires w.deviceCount >= 2 && !(w.cam1Opens && w.cam2Opens)
    ensures var t := Main(w).trace;
      && |t| >= 2
      && t[0] == Open(Cam1, 2, w.cam1Opens)
      && t[1] == Open(Cam2, 1, w.cam2Opens)
      && (forall r :: Close(r) in t <==> Opens(w, r))
      && (forall a :: a in t ==> a.Open? || a.Close?)
    ensures Main(w).outcome == OpenFailed
  {
  }

  lemma SessionOpensAndCloses(index1: nat, path1: Option<string>, index2: nat, path2: Option<string>, r: Role)
    ensures var s := Session(index1, path1, index2, path2);
      Close(r) in s && Open(r, DeviceIndex(r), true) in s
  {
    var s := Session(index1, path1, index2, path2);
    if r == Cam1 {
      assert s[0] == Open(r, DeviceIndex(r), true) && s[7] == Close(r);
    } else {
      assert s[1] == Open(r, DeviceIndex(r), true) && s[9] == Close(r);
    }
  }

  /**
    On every run that raises no exception a camera is closed exactly when its
    open succeeded; the device protocol below adds that each close comes after
    its open, once.
   */
  lemma OpenedDevicesAreClosed(w: World)
    ensures var t := Main(w).trace;
      forall r :: Close(r) in t <==> Open(r, DeviceIndex(r), true) in t
  {
    var t := Main(w).trace;
    if w.deviceCount >= 2 && w.cam1Opens && w.cam2Opens {
      var i1, i2 := CaptureStore.NextIndex(w.listing1), CaptureStore.NextIndex(w.listing2);
      var p1, p2 := CapturedPath(w, Cam1), CapturedPath(w, Cam2);
      var session := Session(i1, p1, i2, p2);
      StreamingTrace(w);
      forall r
        ensures Close(r) in t && Open(r, DeviceIndex(r), true) in t
      {
        SessionOpensAndCloses(i1, p1, i2, p2, r);
      }
    }
  }

  /** On the streaming path `main` performs the session, then the epilogue when both frames were saved. */
  lemma StreamingTrace(w: World)
    requires w.deviceCount >= 2 && w.cam1Opens && w.cam2Opens
    ensures var p1, p2 := CapturedPath(w, Cam1), CapturedPath(w, Cam2);
      var session := Session(CaptureStore.NextIndex(w.listing1), p1, CaptureStore.NextIndex(w.listing2), p2);
      Main(w).trace == if p1.Some? && p2.Some? then session + Epilogue(p1.value, p2.value, MergedPath(w), EdgesPath(w)) else session
  {
  }

  /**
    The order `main` keeps once both cameras are open: camera 1 is opened at
    index 2 and camera 2 at index 1; both are streamed on, camera 1 first; both
    are captured, camera 1 first, as `c1` and `c2`; camera 1 is streamed off
    and closed, then camera 2.
   */
  predicate StreamingOrder(t: seq<Action>, c1: Action, c2: Action) {
    && Precedes(t, Open(Cam1, 2, true), Open(Cam2, 1, true))
    && Precedes(t, Open(Cam2, 1, true), StreamOn(Cam1))
    && Precedes(t, StreamOn(Cam1), StreamOn(Cam2))
    && Precedes(t, StreamOn(Cam2), c1)
    && Precedes(t, c1, c2)
    && Precedes(t, c2, StreamOff(Cam1))
    && Precedes(t, StreamOff(Cam1), Close(Cam1))
    && Precedes(t, Close(Cam1), StreamOff(Cam2))
    && Precedes(t, StreamOff(Cam2), Close(Cam2))
  }

  /** No action occurs twice in `t`. */
  predicate NoRepeats(t: seq<Action>) {
    forall i, j :: 0 <= i < j < |t| ==> t[i] != t[j]
  }

  /**
    Once both cameras are open, the session keeps its order whatever the
    captures return, each capture at the index its directory listing gives.
   */
  lemma StreamingPathReleasesBoth(w: World)
    requires w.deviceCount >= 2 && w.cam1Opens && w.cam2Opens
    ensures StreamingOrder(Main(w).trace,
      Capture(Cam1, CaptureStore.NextIndex(w.listing1), CapturedPath(w, Cam1)),
      Capture(Cam2, CaptureStore.NextIndex(w.listing2), CapturedPath(w, Cam2)))
  {
    StreamingSplit(w);
    SessionThenArtifacts(CaptureStore.NextIndex(w.listing1), CapturedPath(w, Cam1),
      CaptureStore.NextIndex(w.listing2), CapturedPath(w, Cam2), StreamingTail(w));
  }

  /** Once both cameras are open no action occurs twice, so none is repeated or interleaved. */
  lemma StreamingPathNoRepeats(w: World)
    requires w.deviceCount >= 2 && w.cam1Opens && w.cam2Opens
    ensures NoRepeats(Main(w).trace)
  {
    StreamingSplit(w);
    SessionThenArtifacts(CaptureStore.NextIndex(w.listing1), CapturedPath(w, Cam1),
      CaptureStore.NextIndex(w.listing2), CapturedPath(w, Cam2), StreamingTail(w));
  }

  /** The streaming trace is the session followed by its tail. */
  lemma StreamingSplit(w: World)
    requires w.deviceCount >= 2 && w.cam1Opens && w.cam2Opens
    ensures Main(w).trace ==
      Session(CaptureStore.NextIndex(w.listing1), CapturedPath(w, Cam1), CaptureStore.NextIndex(w.listing2), CapturedPath(w, Cam2))
        + StreamingTail(w)
  {
    StreamingTrace(w);
    var session := Session(CaptureStore.NextIndex(w.listing1), CapturedPath(w, Cam1), CaptureStore.NextIndex(w.listing2), CapturedPath(w, Cam2));
    assert session + [] == session;
  }

  /** The session's ten actions are distinct and in order, and artifact actions after them change neither. */
  lemma SessionThenArtifacts(index1: nat, path1: Option<string>, index2: nat, path2: Option<string>, e: seq<Action>)
    requires forall k :: 0 <= k < |e| ==> e[k].Merge? || e[k].DetectEdges?
    requires NoRepeats(e)
    ensures var t := Session(index1, path1, index2, path2) + e;
      StreamingOrder(t, Capture(Cam1, index1, path1), Capture(Cam2, index2, path2)) && NoRepeats(t)
  {
    var s := Session(index1, path1, index2, path2);
    var t := s + e;
    assert t[0] == Open(Cam1, 2, true) && t[1] == Open(Cam2, 1, true);
    assert t[2] == StreamOn(Cam1) && t[3] == StreamOn(Cam2);
    assert t[4] == Capture(Cam1, index1, path1) && t[5] == Capture(Cam2, index2, path2);
    assert t[6] == StreamOff(Cam1) && t[7] == Close(Cam1);
    assert t[8] == StreamOff(Cam2) && t[9] == Close(Cam2);
    forall i, j | 0 <= i < j < |t|
      ensures t[i] != t[j]
    {
      if j >= |s| {
        assert t[j] == e[j - |s|];
        if i >= |s| {
          assert t[i] == e[i - |s|];
        }
      }
    }
  }

  lemma CountIfPair(x: Action, y: Action, p: Action -> bool)
    ensures CountIf([x, y], p) == (if p(x) then 1 else 0) + (if p(y) then 1 else 0)
  {
    assert [x, y][..1] == [x];
    assert [x][..0] == [];
  }

  lemma MergeOnlyInEpilogue(s: seq<Action>, e: seq<Action>, i: nat)
    requires forall k :: 0 <= k < |s| ==> !IsMerge(s[k])
    requires |e| == 2 && !IsMerge(e[1])
    requires i < |s + e| && IsMerge((s + e)[i])
    ensures i == |s|
  {
  }

  /** The streaming session itself neither merges nor detects edges. */
  lemma SessionHasNoArtifacts(index1: nat, path1: Option<string>, index2: nat, path2: Option<string>)
    ensures var s := Session(index1, path1, index2, path2);
      && (forall k :: 0 <= k < |s| ==> !IsMerge(s[k]) && !IsEdges(s[k]))
      && CountIf(s, IsMerge) == 0 && CountIf(s, IsEdges) == 0
  {
  }

  /**
    Merging and edge detection each happen exactly once when both cameras
    opened and both captures produced a file, and never otherwise.
   */
  lemma MergeNeedsBothFrames(w: World)
    ensures var t := Main(w).trace;
      var both := w.deviceCount >= 2 && w.cam1Opens && w.cam2Opens
        && CapturedPath(w, Cam1).Some? && CapturedPath(w, Cam2).Some?;
      && CountIf(t, IsMerge) == (if both then 1 else 0)
      && CountIf(t, IsEdges) == (if both then 1 else 0)
  {
    var t := Main(w).trace;
    if w.deviceCount < 2 {
      assert t == [];
    } else if !w.cam1Opens || !w.cam2Opens {
      assert forall a :: a in t ==> a.Open? || a.Close?;
    } else {
      var i1, i2 := CaptureStore.NextIndex(w.listing1), CaptureStore.NextIndex(w.listing2);
      var p1, p2 := CapturedPath(w, Cam1), CapturedPath(w, Cam2);
      var session := Session(i1, p1, i2, p2);
      StreamingTrace(w);
      SessionHasNoArtifacts(i1, p1, i2, p2);
      if p1.Some? && p2.Some? {
        var epilogue := Epilogue(p1.value, p2.value, MergedPath(w), EdgesPath(w));
        CountIfConcat(session, epilogue, IsMerge);
        CountIfConcat(session, epilogue, IsEdges);
        CountIfPair(epilogue[0], epilogue[1], IsMerge);
        CountIfPair(epilogue[0], epilogue[1], IsEdges);
      }
    }
  }

  /** A completed run merges only at position 10, right after the session. */
  lemma CompletedRunMergesOnce(w: World)
    requires w.deviceCount >= 2 && w.cam1Opens && w.cam2Opens
    requires CapturedPath(w, Cam1).Some? && CapturedPath(w, Cam2).Some?
    ensures var t := Main(w).trace;
      && |t| == 12
      && t[10] == Merge(CapturedPath(w, Cam1).value, CapturedPath(w, Cam2).value, MergedPath(w))
      && t[11] == DetectEdges(MergedPath(w), EdgesPath(w))
      && forall i :: 0 <= i < |t| && t[i].Merge? ==> i == 10
  {
    var t := Main(w).trace;
    var i1, i2 := CaptureStore.NextIndex(w.listing1), CaptureStore.NextIndex(w.listing2);
    var p1, p2 := CapturedPath(w, Cam1), CapturedPath(w, Cam2);
    var session := Session(i1, p1, i2, p2);
    var epilogue := Epilogue(p1.value, p2.value, MergedPath(w), EdgesPath(w));
    StreamingTrace(w);
    SessionHasNoArtifacts(i1, p1, i2, p2);
    forall i | 0 <= i < |t| && t[i].Merge?
      ensures i == |session|
    {
      MergeOnlyInEpilogue(session, epilogue, i);
    }
  }

  /**
    A merge takes the two captured paths and is followed at once by edge
    detection reading the merged file.
   */
  lemma MergeUsesCapturedFrames(w: World)
    ensures var t := Main(w).trace;
      forall i :: 0 <= i < |t| && t[i].Merge? ==>
        && CapturedPath(w, Cam1) == Some(t[i].left)
        && CapturedPath(w, Cam2) == Some(t[i].right)
        && i + 1 < |t| && t[i + 1] == DetectEdges(t[i].output, EdgesPath(w))
  {
    var t := Main(w).trace;
    if w.deviceCount >= 2 && w.cam1Opens && w.cam2Opens && CapturedPath(w, Cam1).Some? && CapturedPath(w, Cam2).Some? {
      CompletedRunMergesOnce(w);
    } else {
      MergeNeedsBothFrames(w);
      forall i | 0 <= i < |t|
        ensures !t[i].Merge?
      {
        assert t[i] in t;
      }
    }
  }

  /** The life cycle of one camera handle. */
  datatype DeviceState = Closed | Idle | Streaming

  /** What a protocol observer knows after a prefix of a run. */
  datatype Monitor = Monitor(
    cam1: DeviceState, cam2: DeviceState,
    frame1: Option<string>, frame2: Option<string>,
    merged: Option<string>, edgesDone: bool)

  const Initial: Monitor := Monitor(Closed, Closed, None, None, None, false)

  function StateOf(m: Monitor, role: Role): DeviceState {
    match role
    case Cam1 => m.cam1
    case Cam2 => m.cam2
  }

  function WithState(m: Monitor, role: Role, s: DeviceState): Monitor {
    match role
    case Cam1 => m.(cam1 := s)
    case Cam2 => m.(cam2 := s)
  }

  function WithFrame(m: Monitor, role: Role, frame: Option<string>): Monitor {
    match role
    case Cam1 => m.(frame1 := frame)
    case Cam2 => m.(frame2 := frame)
  }

  /**
    The device and artifact protocol, independent of `main`: a device is opened
    at its role's index, streamed, captured only while streaming, stopped and
    closed in that order; merging needs both devices released and both frames
    saved; edge detection reads the merged file, once.
   */
  function Step(m: Monitor, a: Action): Option<Monitor> {
    match a
    case Open(r, index, ok) =>
      if StateOf(m, r) == Closed && index == DeviceIndex(r) then Some(if ok then WithState(m, r, Idle) else m) else None
    case StreamOn(r) =>
      if StateOf(m, r) == Idle then Some(WithState(m, r, Streaming)) else None
    case Capture(r, _, saved) =>
      if StateOf(m, r) == Streaming then Some(WithFrame(m, r, saved)) else None
    case StreamOff(r) =>
      if StateOf(m, r) == Streaming then Some(WithState(m, r, Idle)) else None
    case Close(r) =>
      if StateOf(m, r) == Idle then Some(WithState(m, r, Closed)) else None
    case Merge(left, right, output) =>
      if m.cam1 == Closed && m.cam2 == Closed && m.frame1 == Some(left) && m.frame2 == Some(right) && m.merged.None?
      then Some(m.(merged := Some(output)))
      else None
    case DetectEdges(input, _) =>
      if m.merged == Some(input) && !m.edgesDone then Some(m.(edgesDone := true)) else None
  }

  /** Runs the observer over a whole trace; `None` if some action breaks the protocol. */
  function Replay(m: Monitor, t: seq<Action>): Option<Monitor>
    decreases |t|
  {
    if t == [] then Some(m)
    else match Step(m, t[0])
      case None => None
      case Some(m') => Replay(m', t[1..])
  }

  /** Replaying from position `k` is one accepted step followed by replaying from `k + 1`. */
  lemma ReplayFrom(t: seq<Action>, k: nat, m: Monitor, m': Monitor)
    requires k < |t| && Step(m, t[k]) == Some(m')
    ensures Replay(m, t[k..]) == Replay(m', t[k + 1..])
  {
    assert t[k..][0] == t[k];
    assert t[k..][1..] == t[k + 1..];
  }

  lemma {:induction false} ReplayConcat(m: Monitor, s: seq<Action>, t: seq<Action>)
    requires Replay(m, s).Some?
    ensures Replay(m, s + t) == Replay(Replay(m, s).value, t)
    decreases |s|
  {
    if s == [] {
      assert s + t == t;
    } else {
      assert (s + t)[0] == s[0];
      assert (s + t)[1..] == s[1..] + t;
      ReplayConcat(Step(m, s[0]).value, s[1..], t);
    }
  }

  /** The protocol state once both cameras have been released after capturing. */
  function Released(path1: Option<string>, path2: Option<string>): Monitor {
    Monitor(Closed, Closed, path1, path2, None, false)
  }

  /** Opening both cameras and streaming them on leaves both streaming. */
  lemma SessionReplayStart(index1: nat, path1: Option<string>, index2: nat, path2: Option<string>)
    ensures var t := Session(index1, path1, index2, path2);
      Replay(Initial, t) == Replay(Initial.(cam1 := Streaming, cam2 := Streaming), t[4..])
  {
    var t := Session(index1, path1, index2, path2);
    var o1 := Initial.(cam1 := Idle);
    var o2 := o1.(cam2 := Idle);
    var s1 := o2.(cam1 := Streaming);
    assert t[0..] == t;
    ReplayFrom(t, 0, Initial, o1);
    ReplayFrom(t, 1, o1, o2);
    ReplayFrom(t, 2, o2, s1);
    ReplayFrom(t, 3, s1, s1.(cam2 := Streaming));
  }

  /** Capturing, stopping and closing both cameras ends with both released and both results recorded. */
  lemma SessionReplayFinish(index1: nat, path1: Option<string>, index2: nat, path2: Option<string>)
    ensures var t := Session(index1, path1, index2, path2);
      Replay(Initial.(cam1 := Streaming, cam2 := Streaming), t[4..]) == Some(Released(path1, path2))
  {
    var t := Session(index1, path1, index2, path2);
    var s2 := Initial.(cam1 := Streaming, cam2 := Streaming);
    var c1 := s2.(frame1 := path1);
    var c2 := c1.(frame2 := path2);
    var f1 := c2.(cam1 := Idle);
    var r1 := f1.(cam1 := Closed);
    var f2 := r1.(cam2 := Idle);
    ReplayFrom(t, 4, s2, c1);
    ReplayFrom(t, 5, c1, c2);
    ReplayFrom(t, 6, c2, f1);
    ReplayFrom(t, 7, f1, r1);
    ReplayFrom(t, 8, r1, f2);
    ReplayFrom(t, 9, f2, Released(path1, path2));
    assert t[10..] == [];
  }

  lemma SessionReplay(index1: nat, path1: Option<string>, index2: nat, path2: Option<string>)
    ensures Replay(Initial, Session(index1, path1, index2, path2)) == Some(Released(path1, path2))
  {
    SessionReplayStart(index1, path1, index2, path2);
    SessionReplayFinish(index1, path1, index2, path2);
  }

  lemma AbortReplay(w: World)
    requires !w.cam1Opens || !w.cam2Opens
    ensures Replay(Initial, OpenAttempts(w) + CloseOpened(w)) == Some(Initial)
  {
    var t := OpenAttempts(w) + CloseOpened(w);
    var o1 := WithState(Initial, Cam1, if w.cam1Opens then Idle else Closed);
    var o2 := WithState(o1, Cam2, if w.cam2Opens then Idle else Closed);
    assert t[0..] == t;
    ReplayFrom(t, 0, Initial, o1);
    ReplayFrom(t, 1, o1, o2);
    if w.cam1Opens || w.cam2Opens {
      ReplayFrom(t, 2, o2, Initial);
      assert t[3..] == [];
    } else {
      assert t[2..] == [];
    }
  }

  lemma EpilogueReplay(left: string, right: string, merged: string, edges: string)
    ensures Replay(Released(Some(left), Some(right)), Epilogue(left, right, merged, edges))
      == Some(Released(Some(left), Some(right)).(merged := Some(merged), edgesDone := true))
  {
    var t := Epilogue(left, right, merged, edges);
    var m := Released(Some(left), Some(right)).(merged := Some(merged));
    assert t[0..] == t;
    ReplayFrom(t, 0, Released(Some(left), Some(right)), m);
    ReplayFrom(t, 1, m, m.(edgesDone := true));
    assert t[2..] == [];
  }

  /**
    Every run of `main` that raises no exception obeys the device protocol and
    ends with both cameras released; a merged file exists at the end exactly when the run completed,
    and then edge detection has run on it.
   */
  lemma MainFollowsDeviceProtocol(w: World)
    ensures var end := Replay(Initial, Main(w).trace);
      && end.Some?
      && end.value.cam1 == Closed && end.value.cam2 == Closed
      && (end.value.merged.Some? <==> Main(w).outcome.Completed?)
      && (end.value.edgesDone <==> Main(w).outcome.Completed?)
  {
    if w.deviceCount >= 2 {
      if !w.cam1Opens || !w.cam2Opens {
        AbortReplay(w);
      } else {
        var index1, index2 := CaptureStore.NextIndex(w.listing1), CaptureStore.NextIndex(w.listing2);
        var p1, p2 := CapturedPath(w, Cam1), CapturedPath(w, Cam2);
        var session := Session(index1, p1, index2, p2);
        StreamingTrace(w);
        SessionReplay(index1, p1, index2, p2);
        if p1.Some? && p2.Some? {
          var epilogue := Epilogue(p1.value, p2.value, MergedPath(w), EdgesPath(w));
          ReplayConcat(Initial, session, epilogue);
          EpilogueReplay(p1.value, p2.value, MergedPath(w), EdgesPath(w));
        }
      }
    }
  }
}

=== FILE: wrappers.dfy ===
/** The optional value the pipeline uses where the script returns a path or `None`. */
module Wrappers {

  datatype Option<+T> = None | Some(value: T)
}
